=== FILE: README.md ===
# Battery dashboard: sampling and derivation pipeline in Dafny

This project models the core of a desktop dashboard that polls up to nine
battery packs. Each pack reports temperature, voltage and current. The model
covers four pieces:

- **`DataProcessor`** (`data_processor.dfy`): the channel store. It keeps one
  series of rows per channel, seen as `seq<seq<Row>>`. It derives the extra
  columns of each row: the disconnected-probe temperature, the ideal
  temperature, the charging-voltage ceiling and the capacity percentage. It
  answers the trailing twelve-hour query `get_data`. That query is modelled
  as written, but no caller of it appears in the code: the charts are handed
  the full series (`dfs`, main.py:67-80), so they show the whole history.
- **`DataReader`** (`data_reader.dfy`, with `text.dfy` for Python's `split`,
  `join` and `startswith`): what one `read()` call yields. For the Bluetooth
  reader that is the address guard and the parsing of the device's answer. For
  the simulated reader it is the value ranges.
- **`DataManager`** (`data_manager.dfy`): one polling cycle (`update`) and the
  polling loop (`loop`, `stop`), as pure state transitions that also record a
  trace of events.
- **`TimeWindow`** (`time_window.dfy`): the pan and zoom arithmetic behind
  the chart's '<', '>', '+' and '-' buttons.

Representation choices:

- Voltage, temperature and current are exact Dafny `real`s. Python's `round`
  (round half to even) is written out as `Numeric.Round`.
- Row timestamps (`datetime.now()`) are integers counting microseconds. The
  loop's `time.time()` readings are `real` seconds.
- Everything the code gets from outside is an input. That covers the clock
  readings, `random.random()`, the socket exchange (`DataReader.Transport`),
  `float()` (a parameter `parse: string -> Option<real>`, where `None` stands
  for `ValueError`) and the result of every reader call (`DataReader.Outcome`:
  a sample, `None`, or an exception).
- `begin_circle` and `end_circle` are called by `update` (main.py:52 and
  main.py:63). `data_processor.py` does not define them. They appear only as
  the `BeginCycle` and `EndCycle` events of the trace and leave the store
  unchanged.

Choices that follow the code as written:

- The disconnected-probe sentinel is the exact value -50 (data_processor.py:29).
  It is not "-50 or below".
- No cross-channel temperature fallback and no persistence exist in the code,
  so neither is modelled.
- A field's value is `field.split(':')[1]`: the text between the first and
  the second colon (data_reader.py:33).
- The keys `t`, `v`, `c` are never checked. The three fields are taken by
  position.

## Model

| member | source | states |
|---|---|---|
| Numeric.Round | data_processor.py:27 | Python's `round`: the result is within one half of the argument, and an exact tie goes to the even integer |
| Numeric.RoundUnique | data_processor.py:27 | any integer within one half of x that breaks ties to even equals `Round(x)`, so the contract of `Round` determines it |
| Numeric.RoundMonotone | data_processor.py:27 | rounding preserves order |
| DataProcessor.Capacity | data_processor.py:22-26 | capacity is always in 0..100; it is 100 when the voltage is at least 13.0 and 0 when the voltage is at most 11.6 |
| DataProcessor.CapacityBetween | data_processor.py:27 | strictly between 11.6 and 13.0 the capacity is the integer nearest to 66.67·(v − 11.5), ties to even, and is at least 7 |
| DataProcessor.CapacityTieGoesToEven | data_processor.py:27 | ties occur in range: at 11.5 + 7.5/66.67 volts the curve is exactly 7.5 and the capacity is 8 |
| DataProcessor.CapacityMonotone | data_processor.py:22-27 | capacity never decreases as voltage rises |
| DataProcessor.MaxChargingVoltage | data_processor.py:31-32 | the ceiling is 15.4 when the temperature is unknown or at most −40, and 15.4 − 0.03·t otherwise; it is always below 16.6 |
| DataProcessor.MaxChargingVoltageAntitone | data_processor.py:31-32 | above −40 degrees a warmer pack never gets a higher ceiling |
| DataProcessor.Derive | data_processor.py:29-34 | the derived temperature is unknown exactly when the raw temperature is −50, and otherwise equals the raw value; the ideal temperature is always 25.0; the ceiling and the capacity follow the two curves; voltage and current are carried over; the row carries the store's timestamp |
| DataProcessor.DeriveIgnoresReaderTime | data_processor.py:14-17 | the reader's own `dtime` has no influence on the stored row |
| DataProcessor.NewStore | data_processor.py:8-10 | the store starts with one empty series per channel |
| DataProcessor.AddData | data_processor.py:12-19 | channel idx grows by exactly one row, at the end; that row is derived from the sample and stamped `now`; earlier rows of idx and every other channel are unchanged |
| DataProcessor.Window | data_processor.py:39 | the filter keeps exactly the rows stamped strictly after the start time and never grows the series |
| DataProcessor.WindowAppend | data_processor.py:39 | the filter distributes over concatenation, so the kept rows stay in their original order |
| DataProcessor.WindowSingle | data_processor.py:39 | a single row is kept exactly when it is recent |
| DataProcessor.WindowIdempotent | data_processor.py:39 | filtering twice gives what filtering once gives |
| DataProcessor.WindowAllRecent | data_processor.py:39 | a series of recent rows is returned whole |
| DataProcessor.WindowOfOrderedIsSuffix | data_processor.py:39 | when a series is in time order, the window is one of its suffixes |
| DataProcessor.GetData | data_processor.py:36-39 | the query returns exactly the rows of channel idx stamped after now − 12 h; the store is a value and is not changed |
| DataProcessor.NewRowVisible | data_processor.py:12-39 | a row appended at `now` appears last in the query made at `now`, after the rows the query returned before |
| Text.Split | data_reader.py:32-33 | `str.split`: at least one piece, no piece holds the separator, and joining the pieces gives back the string |
| Text.StartsWith | data_reader.py:31 | `str.startswith`: the string is at least as long as the prefix and agrees with it character by character |
| Text.SplitJoin | data_reader.py:32-33 | split undoes join whenever no piece holds the separator |
| DataReader.FieldNumber | data_reader.py:33 | a field with a colon gives exactly `parse` of the text between its first and second colon; a field without a colon gives nothing |
| DataReader.SecondLineFields | data_reader.py:32-33 | the fields exist exactly when the answer has a second line |
| DataReader.ParseFrame | data_reader.py:31-41 | an answer yields no data exactly when it lacks the `<get_data` prefix; a marked answer whose second line has exactly three fields that all parse yields a sample, and any sample carries `now` and takes temperature, voltage and current from the first, second and third fields of that line |
| DataReader.ParseEncodedFrame | data_reader.py:31-39 | a well-formed answer parses back to the temperature, voltage and current its three fields carry, in that order, with no swap and whatever the keys |
| DataReader.Read | data_reader.py:16-41 | a missing or empty address gives no data; with an address, a failed exchange raises and a received answer gives no data exactly when it lacks the `<get_data` prefix |
| DataReader.ReadEncodedFrame | data_reader.py:16-39 | a reader with an address that receives a well-formed answer yields its temperature, voltage and current in that order, stamped `now` |
| DataReader.NoAddressNoExchange | data_reader.py:17-18 | without an address the result does not depend on the transport, so no connection is attempted |
| DataReader.SimRead | data_reader.py:49-55 | for random values in [0,1) the simulated current is in [10,11), the voltage in [12,13) and the temperature in [18,21) |
| DataReader.SimulatedRowsAreInRange | data_reader.py:49-55 | a simulated sample derives to a known temperature, a capacity of 33..100 and a ceiling in (14.77, 14.86] |
| DataManager.Update | main.py:51-63 | a cycle keeps the channel count, and its trace opens with `begin_circle` and closes with `end_circle` |
| DataManager.Visit | main.py:57-61 | one channel's turn: its own series gains the derived row exactly when the reader yielded a sample, and every other channel is unchanged |
| DataManager.ReadFrom | main.py:55-61 | the pass from channel k on keeps the channel count and has at least one and at most two events per channel read |
| DataManager.ReadFromStore | main.py:55-61 | a pass from channel k leaves earlier channels alone and appends to every later channel its own derived row exactly when its reader yielded a sample |
| DataManager.UpdateStore | main.py:55-61 | after a cycle each channel has its old rows plus one row derived from its own reader's sample when there was one, and nothing else |
| DataManager.UpdateBracketed | main.py:51-63 | `begin_circle` comes before any read and `end_circle` after all reads; only reads and appends lie between them |
| DataManager.ReadFromReadsInOrder | main.py:55-57 | a pass from channel k reads k, k + 1, ... once each, in ascending order |
| DataManager.UpdateReadsInOrder | main.py:55-57 | each reader is called exactly once per cycle, in ascending channel order |
| DataManager.ReadFromAppends | main.py:60-61 | a pass holds only reads and appends, and appends to exactly the channels whose reader yielded a sample |
| DataManager.ReadFromAppendFollowsRead | main.py:56-61 | in a pass every append directly follows the read of the same channel |
| DataManager.UpdateAppends | main.py:56-61 | a cycle appends to channel i exactly when reader i yielded a sample, right after reading it |
| DataManager.ReadFromDependsOnYield | main.py:56-61 | a pass depends on each reader only through the sample it yielded, if any |
| DataManager.ErrorIsLikeEmpty | main.py:56-59 | a reader that raises gives the same cycle as one that returned nothing, so the other channels are still read and appended |
| DataManager.SleepTimeout | main.py:47-49 | the loop pauses only when the cycle took less than the period, and the pause is positive |
| DataManager.SleepKeepsPeriod | main.py:45-49 | by the loop's own clock readings, the pause ends one period after the cycle's start when the cycle fits in the period, and at once when it overran; this holds also when the clock steps back |
| DataManager.NewManager | main.py:29-35 | a fresh manager is running over one empty series per channel, and every query at every time returns nothing |
| DataManager.Stop | main.py:40-41 | stop lowers the flag and leaves the store alone |
| DataManager.Loop | main.py:43-49 | a stopped manager runs nothing; the loop never runs more updates than turns and keeps the channel count |
| DataManager.StopHalts | main.py:40-44 | after stop the loop starts no update and emits no event |
| DataManager.LoopRunsEveryTick | main.py:43-49 | without a stop every turn runs one full update and the flag stays up |
| DataManager.LoopStopsAfterRequest | main.py:40-46 | a stop requested during turn k lets that turn finish and starts no later update |
| TimeWindow.PanLeft | ui.py:132-137 | '<' moves the window back by half its width and keeps the width |
| TimeWindow.PanRight | ui.py:140-143 | '>' moves the window forward by half its width and keeps the width |
| TimeWindow.ZoomIn | ui.py:146-148 | '+' keeps x_min and halves the width |
| TimeWindow.ZoomOut | ui.py:151-153 | '-' keeps x_min and doubles the width |
| TimeWindow.PansUndoEachOther | ui.py:132-143 | '<' then '>' restores the window, and so does '>' then '<' |
| TimeWindow.ZoomsUndoEachOther | ui.py:146-153 | '-' then '+' restores the window, and so does '+' then '-' |
| TimeWindow.TwoPansShiftByWidth | ui.py:132-143 | two pans in one direction move the window by one full width |

## Left out

- Floating point: all arithmetic is on exact reals, so IEEE double rounding is not modelled. This matters in two places. Where 66.67·(v − 11.5) lands near a half, the rounded capacity can differ. The 15.4 − 0.03·t ceiling can differ in its last bits.
- TimeWindow.PansUndoEachOther, TimeWindow.ZoomsUndoEachOther: the undo properties hold for exact reals only. In doubles, zooming out and then in can leave `x_max` a rounding step away from where it was.
- DataReader.SimRead: the half-open bounds hold for exact reals only. In doubles, with r = 1 − 2⁻⁵³, `r + 10.0`, `r + 12.0` and `3r + 18.0` round up to 11.0, 13.0 and 21.0. So the source can reach the upper ends that the contract excludes.
- DataReader.FieldNumber, DataManager.Update: `float()` can also return `nan`, `inf` and `-inf`, for example for a field `v:nan`. The `parse` parameter yields only exact reals or nothing, so these values are not modelled. In the source, a NaN voltage makes `round` raise in `capacity` (data_processor.py:27, via :33). That happens inside `add_data` (main.py:61), outside the `try` of main.py:56-59. It would abort the cycle: later channels are not read and `end_circle` is not reached. The exception also leaves `loop` and ends the polling thread. `UpdateStore`, `UpdateAppends` and `ErrorIsLikeEmpty` therefore hold only for finite readings.
- Socket work in `DataReader.read` is not modelled: opening, connecting, sending, the 3-second pause and receiving are transport I/O. Their result is the `Transport` input. A failure while decoding the answer's bytes counts as a failed exchange.
- `float()` is the `parse` parameter, not a number parser. Python evaluates all three fields before unpacking them. All failures become the same `Error` outcome, so the model checks the field count first without changing any result.
- DataProcessor.AddData: requires a channel index in range. Python's negative indexing and its `IndexError` are not modelled, because `update` only passes indices from `enumerate`.
- DataProcessor.GetData: requires a channel index in range. `get_data` has no caller in the code, so no call site bounds its index. In Python, `-1` would select the last channel and an index past the end would raise `IndexError`; neither is modelled.
- `data.get` on a reader result with missing keys is not modelled: both readers always return all four keys. Pandas' coercion of `None` to NaN is not modelled either, and it does not change the ceiling.
- `begin_circle`/`end_circle`: the shown `data_processor.py` does not define them. They are events in the trace with no effect on the store. As written, `update` would fail at main.py:52 on the missing attribute.
- The cross-channel temperature fallback and the save/load of snapshots have no code in the modelled files.
- The plot redraw and the `data_changed` signal at the end of `update` (main.py:65-74) are not modelled. Neither are threads (`start`), configuration reading, logging, Qt widgets and all of `plot.py`. These are UI, I/O and concurrency.
- `MainWindow.plot_params` starts as an empty dict (ui.py:33), and nothing in `ui.py` fills it. As written, each navigation handler would raise `KeyError`. The model covers the arithmetic on a filled (`x_min`, `x_max`) pair. `build_plot_data` does not pass that pair on to the plots (ui.py:124-125 are commented out).
- `SimDataReader(number)` is constructed with an `address=` keyword (main.py:28). That wiring is not modelled; only the simulated values are.
- The `Tick` input of `DataManager.Loop` models a `stop` call from the UI thread as a flag raised during a turn. The loop sees it at its next check. Other thread interleavings are not modelled.
- DataManager.SleepKeepsPeriod: `time.sleep` overrunning the requested pause is not modelled. Neither are the gaps between the clock readings at main.py:45 and main.py:47 and the next turn's start. `Tick` does not tie a turn's `start` to the previous turn's `finish` plus its pause. So the lemma does not promise that cycle starts stay a period apart over many turns. In the source, each sleep overrun shifts every later start.

=== FILE: data_manager.dfy ===
/** The polling cycle (`DataManager.update`) and the polling loop
    (`DataManager.loop`, `stop`), as pure state transitions.

    The readers' results, the wall-clock stamps the store takes for each row,
    and the times the loop measures are inputs. `begin_circle` and `end_circle`
    are opaque bracketing events that leave the store as it is. */
module DataManager {
  import opened Wrappers
  import opened DataProcessor
  import opened DataReader

  /** What a cycle and the loop do, in order. */
  datatype Event =
    | BeginCycle
    | Poll(channel: nat)
    | Append(channel: nat)
    | EndCycle
    | Sleep(seconds: real)

  /** The store after a pass, and the events of the pass. */
  datatype Cycle = Cycle(store: Store, trace: seq<Event>)

  /** The channels read in a trace, in the order they were read. */
  function ReadsOf(trace: seq<Event>): seq<nat>
  {
    if |trace| == 0 then []
    else (if trace[0].Poll? then [trace[0].channel] else []) + ReadsOf(trace[1..])
  }

  lemma {:induction false} ReadsOfAppend(a: seq<Event>, b: seq<Event>)
    ensures ReadsOf(a + b) == ReadsOf(a) + ReadsOf(b)
    decreases |a|
  {
    if |a| == 0 {
      assert a + b == b;
    } else {
      assert (a + b)[1..] == a[1..] + b;
      ReadsOfAppend(a[1..], b);
    }
  }

  /** The events of one channel's turn: its reader is called, and a row is
      appended only when the call yielded a sample. */
  function ChannelEvents(i: nat, o: Outcome): seq<Event>
  {
    [Poll(i)] + (if o.Ok? then [Append(i)] else [])
  }

  /** One channel's turn on the store: only a sample is appended, to its own
      channel, stamped with the store's clock. */
  function Visit(store: Store, i: nat, o: Outcome, now: int): (r: Store)
    requires i < |store|
    ensures |r| == |store|
    ensures r[i] == if o.Ok? then store[i] + [Derive(o.sample, now)] else store[i]
    ensures forall j :: 0 <= j < |store| && j != i ==> r[j] == store[j]
  {
    if o.Ok? then AddData(store, i, o.sample, now) else store
  }

  /** The sequence of reads from channel `k` on. */
  function ReadFrom(store: Store, outcomes: seq<Outcome>, stamps: seq<int>, k: nat): (r: Cycle)
    requires |outcomes| == |stamps| == |store|
    requires k <= |outcomes|
    ensures |r.store| == |store|
    ensures |outcomes| - k <= |r.trace| <= 2 * (|outcomes| - k)
    decreases |outcomes| - k
  {
    if k == |outcomes| then Cycle(store, [])
    else
      var rest := ReadFrom(Visit(store, k, outcomes[k], stamps[k]), outcomes, stamps, k + 1);
      Cycle(rest.store, ChannelEvents(k, outcomes[k]) + rest.trace)
  }

  /** The series channel `i` has after a pass from channel `k`. */
  function Expected(store: Store, outcomes: seq<Outcome>, stamps: seq<int>, k: nat, i: nat): seq<Row>
    requires |outcomes| == |stamps| == |store|
    requires i < |store|
  {
    if k <= i && outcomes[i].Ok? then store[i] + [Derive(outcomes[i].sample, stamps[i])] else store[i]
  }

  /** A pass from channel `k` leaves channels before `k` alone and gives every
      later channel its own row when, and only when, its reader yielded one. */
  lemma {:induction false} ReadFromStore(store: Store, outcomes: seq<Outcome>, stamps: seq<int>, k: nat)
    requires |outcomes| == |stamps| == |store|
    requires k <= |outcomes|
    ensures forall i :: 0 <= i < |store| ==> ReadFrom(store, outcomes, stamps, k).store[i] == Expected(store, outcomes, stamps, k, i)
    decreases |outcomes| - k
  {
    if k < |outcomes| {
      var next := Visit(store, k, outcomes[k], stamps[k]);
      ReadFromStore(next, outcomes, stamps, k + 1);
      forall i | 0 <= i < |store|
        ensures ReadFrom(store, outcomes, stamps, k).store[i] == Expected(store, outcomes, stamps, k, i)
      {
        assert ReadFrom(store, outcomes, stamps, k).store[i] == Expected(next, outcomes, stamps, k + 1, i);
        if i != k {
          assert next[i] == store[i];
        }
      }
    }
  }

  /** The channel indices `k`, `k + 1`, ..., `n - 1`, ascending. */
  function Channels(k: nat, n: nat): (r: seq<nat>)
    ensures |r| == if k <= n then n - k else 0
    ensures forall j :: 0 <= j < |r| ==> r[j] == k + j
    decreases n - k
  {
    if k >= n then [] else [k] + Channels(k + 1, n)
  }

  /** A pass from channel `k` reads channels `k`, `k + 1`, ... once each, in
      ascending order. */
  lemma {:induction false} ReadFromReadsInOrder(store: Store, outcomes: seq<Outcome>, stamps: seq<int>, k: nat)
    requires |outcomes| == |stamps| == |store|
    requires k <= |outcomes|
    ensures ReadsOf(ReadFrom(store, outcomes, stamps, k).trace) == Channels(k, |outcomes|)
    decreases |outcomes| - k
  {
    if k < |outcomes| {
      var next := Visit(store, k, outcomes[k], stamps[k]);
      var head := ChannelEvents(k, outcomes[k]);
      ReadFromReadsInOrder(next, outcomes, stamps, k + 1);
      ReadsOfAppend(head, ReadFrom(next, outcomes, stamps, k + 1).trace);
      assert ReadsOf(head) == [k] by {
        assert head[1..] == if outcomes[k].Ok? then [Append(k)] else [];
      }
    }
  }

  /** A pass holds nothing but reads and appends, and appends to exactly the
      channels, from `k` on, whose reader yielded a sample. */
  lemma {:induction false} ReadFromAppends(store: Store, outcomes: seq<Outcome>, stamps: seq<int>, k: nat)
    requires |outcomes| == |stamps| == |store|
    requires k <= |outcomes|
    ensures var t := ReadFrom(store, outcomes, stamps, k).trace;
      && (forall j :: 0 <= j < |t| ==> t[j].Poll? || t[j].Append?)
      && (forall i: nat :: Append(i) in t <==> k <= i < |outcomes| && outcomes[i].Ok?)
    decreases |outcomes| - k
  {
    if k < |outcomes| {
      var next := Visit(store, k, outcomes[k], stamps[k]);
      var rest := ReadFrom(next, outcomes, stamps, k + 1).trace;
      var head := ChannelEvents(k, outcomes[k]);
      ReadFromAppends(next, outcomes, stamps, k + 1);
      assert ReadFrom(store, outcomes, stamps, k).trace == head + rest;
      forall i: nat
        ensures Append(i) in head + rest <==> k <= i < |outcomes| && outcomes[i].Ok?
      {
        assert Append(i) in head + rest <==> Append(i) in head || Append(i) in rest;
      }
    }
  }

  /** In a pass every append comes right after the read of the same channel. */
  lemma {:induction false} ReadFromAppendFollowsRead(store: Store, outcomes: seq<Outcome>, stamps: seq<int>, k: nat)
    requires |outcomes| == |stamps| == |store|
    requires k <= |outcomes|
    ensures var t := ReadFrom(store, outcomes, stamps, k).trace;
      && (k < |outcomes| ==> |t| > 0 && t[0] == Poll(k))
      && (forall j :: 0 <= j < |t| && t[j].Append? ==> j > 0 && t[j - 1] == Poll(t[j].channel))
    decreases |outcomes| - k
  {
    if k < |outcomes| {
      var next := Visit(store, k, outcomes[k], stamps[k]);
      var rest := ReadFrom(next, outcomes, stamps, k + 1).trace;
      var head := ChannelEvents(k, outcomes[k]);
      var t := head + rest;
      ReadFromAppendFollowsRead(next, outcomes, stamps, k + 1);
      assert ReadFrom(store, outcomes, stamps, k).trace == t;
      forall j | 0 <= j < |t| && t[j].Append?
        ensures j > 0 && t[j - 1] == Poll(t[j].channel)
      {
        if j > |head| {
          assert t[j] == rest[j - |head|];
          assert t[j - 1] == rest[j - 1 - |head|];
        }
      }
    }
  }

  /** `DataManager.update` without the plot redraw: begin the cycle, call every
      channel's reader in index order, append what each call yielded, end the
      cycle. `outcomes[i]` is what reader `i` gave this cycle and `stamps[i]` the
      clock reading the store takes if it appends for channel `i`. */
  function Update(store: Store, outcomes: seq<Outcome>, stamps: seq<int>): (r: Cycle)
    requires |outcomes| == |stamps| == |store|
    ensures |r.store| == |store|
    ensures |r.trace| >= 2 && r.trace[0] == BeginCycle && r.trace[|r.trace| - 1] == EndCycle
  {
    var pass := ReadFrom(store, outcomes, stamps, 0);
    Cycle(pass.store, [BeginCycle] + pass.trace + [EndCycle])
  }

  /** After a cycle each channel holds its earlier rows plus, when and only
      when its reader yielded a sample, one row derived from that sample: no
      channel gains more than one row or a row meant for another channel. */
  lemma UpdateStore(store: Store, outcomes: seq<Outcome>, stamps: seq<int>)
    requires |outcomes| == |stamps| == |store|
    ensures var r := Update(store, outcomes, stamps).store;
      forall i :: 0 <= i < |store| ==>
        r[i] == if outcomes[i].Ok? then store[i] + [Derive(outcomes[i].sample, stamps[i])] else store[i]
  {
    ReadFromStore(store, outcomes, stamps, 0);
  }

  /** The cycle opens with `begin_circle` before any read and closes with
      `end_circle` after all of them; in between there are only reads and
      appends. */
  lemma UpdateBracketed(store: Store, outcomes: seq<Outcome>, stamps: seq<int>)
    requires |outcomes| == |stamps| == |store|
    ensures var t := Update(store, outcomes, stamps).trace;
      && t[0] == BeginCycle && t[|t| - 1] == EndCycle
      && forall j :: 0 < j < |t| - 1 ==> t[j].Poll? || t[j].Append?
  {
    ReadFromAppends(store, outcomes, stamps, 0);
  }

  /** Every channel's reader is called exactly once per cycle, in ascending
      channel order. */
  lemma UpdateReadsInOrder(store: Store, outcomes: seq<Outcome>, stamps: seq<int>)
    requires |outcomes| == |stamps| == |store|
    ensures ReadsOf(Update(store, outcomes, stamps).trace) == Channels(0, |store|)
  {
    var pass := ReadFrom(store, outcomes, stamps, 0);
    ReadFromReadsInOrder(store, outcomes, stamps, 0);
    ReadsOfAppend([BeginCycle], pass.trace);
    ReadsOfAppend([BeginCycle] + pass.trace, [EndCycle]);
  }

  /** A cycle appends to exactly the channels whose reader yielded a sample,
      each right after that channel's read. */
  lemma UpdateAppends(store: Store, outcomes: seq<Outcome>, stamps: seq<int>)
    requires |outcomes| == |stamps| == |store|
    ensures var t := Update(store, outcomes, stamps).trace;
      && (forall i: nat :: Append(i) in t <==> i < |store| && outcomes[i].Ok?)
      && (forall j :: 0 <= j < |t| && t[j].Append? ==> j > 0 && t[j - 1] == Poll(t[j].channel))
  {
    var pass := ReadFrom(store, outcomes, stamps, 0);
    var t := [BeginCycle] + pass.trace + [EndCycle];
    ReadFromAppends(store, outcomes, stamps, 0);
    ReadFromAppendFollowsRead(store, outcomes, stamps, 0);
    forall i: nat
      ensures Append(i) in t <==> Append(i) in pass.trace
    {
    }
    forall j | 0 <= j < |t| && t[j].Append?
      ensures j > 0 && t[j - 1] == Poll(t[j].channel)
    {
      assert t[j] == pass.trace[j - 1];
      if j > 1 {
        assert t[j - 1] == pass.trace[j - 2];
      }
    }
  }

  /** The effect of a reader call on the cycle: a sample, or nothing. */
  function Yield(o: Outcome): Option<Sample>
  {
    if o.Ok? then Some(o.sample) else None
  }

  /** Passes over outcomes that yield the same samples are the same pass: a
      reader that raises is indistinguishable from one that returned nothing. */
  lemma {:induction false} ReadFromDependsOnYield(store: Store, o1: seq<Outcome>, o2: seq<Outcome>, stamps: seq<int>, k: nat)
    requires |o1| == |o2| == |stamps| == |store|
    requires k <= |o1|
    requires forall i :: 0 <= i < |o1| ==> Yield(o1[i]) == Yield(o2[i])
    ensures ReadFrom(store, o1, stamps, k) == ReadFrom(store, o2, stamps, k)
    decreases |o1| - k
  {
    if k < |o1| {
      assert Visit(store, k, o1[k], stamps[k]) == Visit(store, k, o2[k], stamps[k]);
      assert ChannelEvents(k, o1[k]) == ChannelEvents(k, o2[k]);
      ReadFromDependsOnYield(Visit(store, k, o1[k], stamps[k]), o1, o2, stamps, k + 1);
    }
  }

  /** A reader that raises costs its own channel its row and nothing else: the
      cycle is exactly the one in which that reader returned nothing. */
  lemma ErrorIsLikeEmpty(store: Store, outcomes: seq<Outcome>, stamps: seq<int>, k: nat)
    requires |outcomes| == |stamps| == |store|
    requires k < |outcomes|
    ensures Update(store, outcomes[k := Error], stamps) == Update(store, outcomes[k := Empty], stamps)
  {
    ReadFromDependsOnYield(store, outcomes[k := Error], outcomes[k := Empty], stamps, 0);
  }

  /** The pause `loop` takes after a cycle that started at `start` and finished
      at `finish`: `period - elapsed` when that is positive, none otherwise. */
  function SleepTimeout(period: real, start: real, finish: real): (r: Option<real>)
    ensures r.Some? ==> r.value > 0.0
    ensures r.Some? <==> finish - start < period
  {
    var timeout := period - (finish - start);
    if timeout > 0.0 then Some(timeout) else None
  }

  /** By the loop's own clock readings, the pause ends one period after the
      cycle's start when the cycle fits in the period, and at once otherwise.
      This holds also when the clock steps back during a cycle, in which case
      the pause exceeds the period. */
  lemma SleepKeepsPeriod(period: real, start: real, finish: real)
    ensures var pause := match SleepTimeout(period, start, finish) case Some(d) => d case None => 0.0;
      finish + pause == start + (if finish - start < period then period else finish - start)
  {
  }

  /** The loop's state: the run flag and the store. */
  datatype Manager = Manager(running: bool, store: Store)

  /** What happens during one turn of the loop: the readers' outcomes and the
      store's stamps for the update, the clock before and after it, and whether
      `stop` was called before the loop next checks its flag. */
  datatype Tick = Tick(outcomes: seq<Outcome>, stamps: seq<int>, start: real, finish: real, stopRequested: bool)

  /** The manager after the loop, its events, and the number of updates run. */
  datatype Run = Run(manager: Manager, trace: seq<Event>, cycles: nat)

  /** A manager that has not been stopped, over `count` empty series. */
  function NewManager(count: nat): (m: Manager)
    ensures m.running && |m.store| == count
    ensures forall i :: 0 <= i < count ==> m.store[i] == []
    ensures forall i, now :: 0 <= i < count ==> GetData(m.store, i, now) == []
  {
    Manager(true, NewStore(count))
  }

  /** `DataManager.stop`: lowers the flag and touches nothing else. */
  function Stop(m: Manager): (r: Manager)
    ensures !r.running && r.store == m.store
  {
    m.(running := false)
  }

  /** Every turn gives one outcome and one stamp per channel. */
  predicate TicksFit(ticks: seq<Tick>, count: nat)
  {
    forall i :: 0 <= i < |ticks| ==> |ticks[i].outcomes| == count && |ticks[i].stamps| == count
  }

  /** `DataManager.loop` over the turns `ticks`: while the flag is up, run an
      update, then pause for what is left of the period. */
  function Loop(m: Manager, period: real, ticks: seq<Tick>): (r: Run)
    requires TicksFit(ticks, |m.store|)
    ensures |r.manager.store| == |m.store|
    ensures r.cycles <= |ticks|
    ensures !m.running ==> r == Run(m, [], 0)
    decreases |ticks|
  {
    if !m.running || |ticks| == 0 then Run(m, [], 0)
    else
      var t := ticks[0];
      var c := Update(m.store, t.outcomes, t.stamps);
      var pause := match SleepTimeout(period, t.start, t.finish) case Some(d) => [Sleep(d)] case None => [];
      var rest := Loop(Manager(!t.stopRequested, c.store), period, ticks[1..]);
      Run(rest.manager, c.trace + pause + rest.trace, rest.cycles + 1)
  }

  /** After `stop` the loop starts no further update. */
  lemma StopHalts(m: Manager, period: real, ticks: seq<Tick>)
    requires TicksFit(ticks, |m.store|)
    ensures Loop(Stop(m), period, ticks) == Run(Stop(m), [], 0)
    ensures BeginCycle !in Loop(Stop(m), period, ticks).trace
  {
  }

  /** Without a stop, every turn runs a full update and the flag stays up. */
  lemma {:induction false} LoopRunsEveryTick(m: Manager, period: real, ticks: seq<Tick>)
    requires TicksFit(ticks, |m.store|)
    requires m.running
    requires forall i :: 0 <= i < |ticks| ==> !ticks[i].stopRequested
    ensures Loop(m, period, ticks).cycles == |ticks|
    ensures Loop(m, period, ticks).manager.running
    decreases |ticks|
  {
    if |ticks| > 0 {
      var c := Update(m.store, ticks[0].outcomes, ticks[0].stamps);
      LoopRunsEveryTick(Manager(true, c.store), period, ticks[1..]);
    }
  }

  /** A stop requested during turn `k` lets that turn's update finish and
      starts no later one. */
  lemma {:induction false} LoopStopsAfterRequest(m: Manager, period: real, ticks: seq<Tick>, k: nat)
    requires TicksFit(ticks, |m.store|)
    requires k < |ticks| && ticks[k].stopRequested
    ensures Loop(m, period, ticks).cycles <= k + 1
    ensures !Loop(m, period, ticks).manager.running
    decreases |ticks|
  {
    if m.running {
      var c := Update(m.store, ticks[0].outcomes, ticks[0].stamps);
      var m' := Manager(!ticks[0].stopRequested, c.store);
      if k > 0 {
        LoopStopsAfterRequest(m', period, ticks[1..], k - 1);
      }
    }
  }

}

=== FILE: data_processor.dfy ===
/** The channel store of the dashboard (`DataProcessor`): one time series of
    rows per channel, the per-sample derivation of engineering quantities, and
    the trailing twelve-hour query. The query has no caller in the code; the
    charts receive the full series.

    Numbers are exact reals, timestamps are integer microseconds. */
module DataProcessor {
  import opened Wrappers
  import Numeric

  /** One reading as a channel reader hands it over: the columns `dtime`,
      `temperature`, `voltage`, `current`. */
  datatype Sample = Sample(dtime: int, temperature: real, voltage: real, current: real)

  /** One stored row: the sample's columns plus the derived ones. A temperature
      of `None` means the probe reported itself disconnected. */
  datatype Row = Row(
    dtime: int,
    temperature: Option<real>,
    voltage: real,
    current: real,
    idealTemp: real,
    maxChargingVoltage: real,
    capacity: int)

  /** One series per channel, in arrival order. */
  type Store = seq<seq<Row>>

  /** The raw temperature a disconnected probe reports. */
  const DisconnectedTemperature: real := -50.0

  /** The ideal battery temperature written into every row. */
  const IdealTemperature: real := 25.0

  /** Charging ceiling at 0 degrees, and its slope per degree. */
  const NominalChargingVoltage: real := 15.4
  const ChargingVoltageSlope: real := 0.03

  /** Below or at this temperature the ceiling stops depending on temperature. */
  const ColdLimit: real := -40.0

  /** Capacity curve: full at or above `FullVoltage`, empty at or below
      `EmptyVoltage`, otherwise `CapacitySlope * (v - CapacityOrigin)` rounded. */
  const FullVoltage: real := 13.0
  const EmptyVoltage: real := 11.6
  const CapacitySlope: real := 66.67
  const CapacityOrigin: real := 11.5

  /** Length of the trailing query window: twelve hours in microseconds. */
  const WindowSpan: int := 12 * 60 * 60 * 1_000_000

  /** State of charge in percent for a pack voltage. */
  function Capacity(v: real): (r: int)
    ensures 0 <= r <= 100
    ensures v >= FullVoltage ==> r == 100
    ensures v <= EmptyVoltage ==> r == 0
  {
    if v >= FullVoltage then 100
    else if v <= EmptyVoltage then 0
    else Numeric.Round(CapacitySlope * (v - CapacityOrigin))
  }

  /** Between the two thresholds the capacity is the integer nearest to the
      linear curve, an exact tie going to the even neighbour, and never below 7
      percent. */
  lemma CapacityBetween(v: real)
    requires EmptyVoltage < v < FullVoltage
    ensures 7 <= Capacity(v) <= 100
    ensures -0.5 <= Capacity(v) as real - CapacitySlope * (v - CapacityOrigin) <= 0.5
    ensures (Capacity(v) as real - CapacitySlope * (v - CapacityOrigin) == 0.5
             || CapacitySlope * (v - CapacityOrigin) - Capacity(v) as real == 0.5) ==> Capacity(v) % 2 == 0
  {
  }

  /** Ties do occur between the thresholds: at 11.5 + 7.5 / 66.67 volts the
      curve is exactly 7.5, and the capacity is the even neighbour 8. */
  lemma CapacityTieGoesToEven()
    ensures var v := CapacityOrigin + 7.5 / CapacitySlope;
      EmptyVoltage < v < FullVoltage && CapacitySlope * (v - CapacityOrigin) == 7.5 && Capacity(v) == 8
  {
  }

  /** The capacity never drops when the voltage rises. */
  lemma CapacityMonotone(v1: real, v2: real)
    requires v1 <= v2
    ensures Capacity(v1) <= Capacity(v2)
  {
    if EmptyVoltage < v1 && v2 < FullVoltage {
      Numeric.RoundMonotone(CapacitySlope * (v1 - CapacityOrigin), CapacitySlope * (v2 - CapacityOrigin));
    }
  }

  /** Charging-voltage ceiling for a (possibly unknown) temperature: an unknown
      or very cold temperature counts as 0 degrees. */
  function MaxChargingVoltage(t: Option<real>): (r: real)
    ensures (t.None? || t.value <= ColdLimit) ==> r == NominalChargingVoltage
    ensures t.Some? && t.value > ColdLimit ==> r == NominalChargingVoltage - ChargingVoltageSlope * t.value
    ensures r < NominalChargingVoltage - ChargingVoltageSlope * ColdLimit
  {
    var effective := if t.Some? && t.value > ColdLimit then t.value else 0.0;
    NominalChargingVoltage - ChargingVoltageSlope * effective
  }

  /** Above the cold limit a warmer pack never gets a higher ceiling. */
  lemma MaxChargingVoltageAntitone(t1: real, t2: real)
    requires ColdLimit < t1 <= t2
    ensures MaxChargingVoltage(Some(t2)) <= MaxChargingVoltage(Some(t1))
  {
  }

  /** The derivation of one row from one sample, stamped with `now`. */
  function Derive(s: Sample, now: int): (r: Row)
    ensures r.dtime == now
    ensures r.temperature.None? <==> s.temperature == DisconnectedTemperature
    ensures r.temperature.Some? ==> r.temperature.value == s.temperature
    ensures r.voltage == s.voltage && r.current == s.current
    ensures r.idealTemp == IdealTemperature
    ensures r.maxChargingVoltage == MaxChargingVoltage(r.temperature)
    ensures r.capacity == Capacity(s.voltage)
  {
    var t := if s.temperature != DisconnectedTemperature then Some(s.temperature) else None;
    Row(now, t, s.voltage, s.current, IdealTemperature, MaxChargingVoltage(t), Capacity(s.voltage))
  }

  /** The timestamp a reader puts into its sample has no influence on the row:
      the store stamps rows with its own clock. */
  lemma DeriveIgnoresReaderTime(s: Sample, other: int, now: int)
    ensures Derive(s.(dtime := other), now) == Derive(s, now)
  {
  }

  /** A store of `count` empty series. */
  function NewStore(count: nat): (s: Store)
    ensures |s| == count
    ensures forall i :: 0 <= i < count ==> s[i] == []
  {
    seq(count, _ => [])
  }

  /** Appends the row derived from `data`, stamped `now`, to channel `idx`. */
  function AddData(store: Store, idx: int, data: Sample, now: int): (r: Store)
    requires 0 <= idx < |store|
    ensures |r| == |store|
    ensures |r[idx]| == |store[idx]| + 1
    ensures r[idx][..|store[idx]|] == store[idx]
    ensures r[idx][|store[idx]|] == Derive(data, now)
    ensures r[idx][|store[idx]|].dtime == now
    ensures forall j :: 0 <= j < |store| && j != idx ==> r[j] == store[j]
  {
    store[idx := store[idx] + [Derive(data, now)]]
  }

  /** The rows of `rows` stamped strictly after `start`, in their original order. */
  function Window(rows: seq<Row>, start: int): (w: seq<Row>)
    ensures |w| <= |rows|
    ensures forall r :: r in w <==> r in rows && r.dtime > start
  {
    if |rows| == 0 then []
    else (if rows[0].dtime > start then [rows[0]] else []) + Window(rows[1..], start)
  }

  /** The window distributes over concatenation, so it keeps the relative order
      of the rows it selects; with `WindowSingle` this determines it. */
  lemma {:induction false} WindowAppend(a: seq<Row>, b: seq<Row>, start: int)
    ensures Window(a + b, start) == Window(a, start) + Window(b, start)
    decreases |a|
  {
    if |a| == 0 {
      assert a + b == b;
    } else {
      assert (a + b)[1..] == a[1..] + b;
      WindowAppend(a[1..], b, start);
    }
  }

  /** A single row is kept exactly when it is recent enough. */
  lemma WindowSingle(row: Row, start: int)
    ensures Window([row], start) == if row.dtime > start then [row] else []
  {
    assert [row][1..] == [];
  }

  /** Applying the window twice selects nothing more and nothing less. */
  lemma {:induction false} WindowIdempotent(rows: seq<Row>, start: int)
    ensures Window(Window(rows, start), start) == Window(rows, start)
    decreases |rows|
  {
    if |rows| > 0 {
      var head := if rows[0].dtime > start then [rows[0]] else [];
      WindowAppend(head, Window(rows[1..], start), start);
      WindowIdempotent(rows[1..], start);
      if rows[0].dtime > start {
        WindowSingle(rows[0], start);
      }
    }
  }

  /** When rows arrive in time order (as they do when the clock does not step
      back), the window is a suffix of the series. */
  lemma {:induction false} WindowOfOrderedIsSuffix(rows: seq<Row>, start: int)
    requires forall i, j :: 0 <= i <= j < |rows| ==> rows[i].dtime <= rows[j].dtime
    ensures exists k :: 0 <= k <= |rows| && Window(rows, start) == rows[k..]
    decreases |rows|
  {
    if |rows| == 0 {
      assert Window(rows, start) == rows[0..];
    } else if rows[0].dtime > start {
      assert forall i :: 0 <= i < |rows| ==> rows[i].dtime > start;
      WindowAllRecent(rows, start);
      assert Window(rows, start) == rows[0..];
    } else {
      WindowOfOrderedIsSuffix(rows[1..], start);
      var k :| 0 <= k <= |rows[1..]| && Window(rows[1..], start) == rows[1..][k..];
      assert rows[1..][k..] == rows[k + 1..];
      assert Window(rows, start) == rows[k + 1..];
    }
  }

  /** A series whose every row is recent is returned whole. */
  lemma {:induction false} WindowAllRecent(rows: seq<Row>, start: int)
    requires forall i :: 0 <= i < |rows| ==> rows[i].dtime > start
    ensures Window(rows, start) == rows
    decreases |rows|
  {
    if |rows| > 0 {
      WindowAllRecent(rows[1..], start);
      assert [rows[0]] + rows[1..] == rows;
    }
  }

  /** The twelve-hour query on channel `idx` at time `now`. */
  function GetData(store: Store, idx: int, now: int): (w: seq<Row>)
    requires 0 <= idx < |store|
    ensures forall r :: r in w <==> r in store[idx] && r.dtime > now - WindowSpan
  {
    Window(store[idx], now - WindowSpan)
  }

  /** A row appended at `now` shows up at the end of the query made at `now`,
      after exactly the rows the query showed before. */
  lemma NewRowVisible(store: Store, idx: int, data: Sample, now: int)
    requires 0 <= idx < |store|
    ensures GetData(AddData(store, idx, data, now), idx, now) == GetData(store, idx, now) + [Derive(data, now)]
  {
    WindowAppend(store[idx], [Derive(data, now)], now - WindowSpan);
    WindowSingle(Derive(data, now), now - WindowSpan);
  }

}

=== FILE: data_reader.dfy ===
/** The channel readers (`DataReader`, `SimDataReader`): what one `read()`
    call yields for one channel.

    The Bluetooth exchange is not modelled: the text the device answered, or the
    failure of the exchange, is an input (`Transport`). Python's `float()` is the
    parameter `parse`, which yields `None` where `float()` raises. */
module DataReader {
  import opened Wrappers
  import opened Text
  import opened DataProcessor

  /** What one `read()` call comes to, as seen by the polling cycle: a sample,
      no data (the call returned `None`), or an exception. */
  datatype Outcome = Ok(sample: Sample) | Empty | Error

  /** The result of the socket exchange: the decoded answer, or a failure to
      open, connect, send or receive. */
  datatype Transport = Received(text: string) | Failed

  /** Every valid answer starts with this marker. */
  const FramePrefix: string := "<get_data"

  /** The number a `key:value` field carries: the text between its first and
      second colon (`field.split(':')[1]`), converted by `parse`. `None` when
      the field holds no colon or the text is not a number. */
  function FieldNumber(field: string, parse: string -> Option<real>): (r: Option<real>)
    ensures |Split(field, ':')| < 2 ==> r.None?
    ensures |Split(field, ':')| >= 2 ==> r == parse(Split(field, ':')[1])
  {
    var pieces := Split(field, ':');
    if |pieces| < 2 then None else parse(pieces[1])
  }

  /** The fields of the second line of an answer, split on `;`; `None` when the
      answer has a single line (Python raises an `IndexError` there). */
  function SecondLineFields(data: string): (r: Option<seq<string>>)
    ensures r.Some? <==> |Split(data, '\n')| >= 2
  {
    var lines := Split(data, '\n');
    if |lines| < 2 then None else Some(Split(lines[1], ';'))
  }

  /** The parsing part of `DataReader.read`: an answer without the marker gives
      no data; a marked answer whose second line is not exactly three numeric
      `key:value` fields raises; otherwise the fields are temperature, voltage and
      current in that order, whatever their keys, stamped `now`. */
  function ParseFrame(data: string, parse: string -> Option<real>, now: int): (r: Outcome)
    ensures r.Empty? <==> !StartsWith(data, FramePrefix)
    ensures r.Ok? ==> r.sample.dtime == now
    ensures r.Ok? ==>
      && SecondLineFields(data).Some?
      && |SecondLineFields(data).value| == 3
      && FieldNumber(SecondLineFields(data).value[0], parse) == Some(r.sample.temperature)
      && FieldNumber(SecondLineFields(data).value[1], parse) == Some(r.sample.voltage)
      && FieldNumber(SecondLineFields(data).value[2], parse) == Some(r.sample.current)
    ensures
      && StartsWith(data, FramePrefix)
      && SecondLineFields(data).Some?
      && |SecondLineFields(data).value| == 3
      && FieldNumber(SecondLineFields(data).value[0], parse).Some?
      && FieldNumber(SecondLineFields(data).value[1], parse).Some?
      && FieldNumber(SecondLineFields(data).value[2], parse).Some?
      ==> r.Ok?
  {
    if !StartsWith(data, FramePrefix) then Empty
    else
      match SecondLineFields(data)
      case None => Error
      case Some(fields) =>
        if |fields| != 3 then Error
        else
          match (FieldNumber(fields[0], parse), FieldNumber(fields[1], parse), FieldNumber(fields[2], parse))
          case (Some(t), Some(v), Some(c)) => Ok(Sample(now, t, v, c))
          case _ => Error
  }

  /** `DataReader.read` for a reader configured with `address`. */
  function Read(address: Option<string>, transport: Transport, parse: string -> Option<real>, now: int): (r: Outcome)
    ensures (address.None? || address.value == "") ==> r == Empty
    ensures address.Some? && address.value != "" && transport.Failed? ==> r == Error
    ensures address.Some? && address.value != "" && transport.Received? ==>
      (r.Empty? <==> !StartsWith(transport.text, FramePrefix))
  {
    if address.None? || address.value == "" then Empty
    else
      match transport
      case Failed => Error
      case Received(text) => ParseFrame(text, parse, now)
  }

  /** Without an address the reader never looks at the transport: whatever the
      exchange would have produced, the result is the same. */
  lemma NoAddressNoExchange(address: Option<string>, t1: Transport, t2: Transport, parse: string -> Option<real>, now: int)
    requires address.None? || address.value == ""
    ensures Read(address, t1, parse, now) == Read(address, t2, parse, now) == Empty
  {
  }

  /** One `key:value` field as a device writes it. */
  function Field(key: string, value: string): string
  {
    key + [':'] + value
  }

  /** A well-formed answer: a marked header line, then the three fields on one
      line, then any further lines. */
  function EncodeFrame(header: string, keys: seq<string>, values: seq<string>, tail: seq<string>): string
    requires |keys| == 3 && |values| == 3
  {
    var body := Join([Field(keys[0], values[0]), Field(keys[1], values[1]), Field(keys[2], values[2])], ';');
    Join([header, body] + tail, '\n')
  }

  /** A field built from clean text splits back into its key and its value. */
  lemma FieldSplit(key: string, value: string)
    requires ':' !in key && ';' !in key && '\n' !in key
    requires ':' !in value && ';' !in value && '\n' !in value
    ensures Split(Field(key, value), ':') == [key, value]
    ensures ';' !in Field(key, value) && '\n' !in Field(key, value)
  {
    SplitAtFirstSeparator(key, value, ':');
    SplitWithoutSeparator(value, ':');
  }

  /** Parsing a well-formed answer gives back the three numbers its fields
      carry, positionally: first temperature, then voltage, then current. The
      keys are not consulted. */
  lemma ParseEncodedFrame(
    header: string, keys: seq<string>, values: seq<string>, tail: seq<string>,
    parse: string -> Option<real>, t: real, v: real, c: real, now: int)
    requires StartsWith(header, FramePrefix) && '\n' !in header
    requires |keys| == 3 && |values| == 3
    requires forall i :: 0 <= i < 3 ==> ':' !in keys[i] && ';' !in keys[i] && '\n' !in keys[i]
    requires forall i :: 0 <= i < 3 ==> ':' !in values[i] && ';' !in values[i] && '\n' !in values[i]
    requires forall i :: 0 <= i < |tail| ==> '\n' !in tail[i]
    requires parse(values[0]) == Some(t) && parse(values[1]) == Some(v) && parse(values[2]) == Some(c)
    ensures ParseFrame(EncodeFrame(header, keys, values, tail), parse, now) == Ok(Sample(now, t, v, c))
  {
    var fields := [Field(keys[0], values[0]), Field(keys[1], values[1]), Field(keys[2], values[2])];
    FieldSplit(keys[0], values[0]);
    FieldSplit(keys[1], values[1]);
    FieldSplit(keys[2], values[2]);
    var body := Join(fields, ';');
    JoinAvoids(fields, ';', '\n');
    var lines := [header, body] + tail;
    var data := Join(lines, '\n');
    assert data == EncodeFrame(header, keys, values, tail);
    JoinStartsWithFirst(lines, '\n');
    StartsWithTransitive(data, header, FramePrefix);
    SplitJoin(lines, '\n');
    SplitJoin(fields, ';');
    assert SecondLineFields(data) == Some(fields);
  }

  /** A reader with an address that receives a well-formed answer yields the
      sample its fields carry, stamped `now`, with temperature, voltage and
      current in that order. */
  lemma ReadEncodedFrame(
    address: string, header: string, keys: seq<string>, values: seq<string>, tail: seq<string>,
    parse: string -> Option<real>, t: real, v: real, c: real, now: int)
    requires address != ""
    requires StartsWith(header, FramePrefix) && '\n' !in header
    requires |keys| == 3 && |values| == 3
    requires forall i :: 0 <= i < 3 ==> ':' !in keys[i] && ';' !in keys[i] && '\n' !in keys[i]
    requires forall i :: 0 <= i < 3 ==> ':' !in values[i] && ';' !in values[i] && '\n' !in values[i]
    requires forall i :: 0 <= i < |tail| ==> '\n' !in tail[i]
    requires parse(values[0]) == Some(t) && parse(values[1]) == Some(v) && parse(values[2]) == Some(c)
    ensures Read(Some(address), Received(EncodeFrame(header, keys, values, tail)), parse, now) == Ok(Sample(now, t, v, c))
  {
    ParseEncodedFrame(header, keys, values, tail, parse, t, v, c, now);
  }

  /** `SimDataReader.read` given the three values `random.random()` returns, in
      call order: current, voltage, temperature. */
  function SimRead(r1: real, r2: real, r3: real, now: int): (s: Sample)
    requires 0.0 <= r1 < 1.0 && 0.0 <= r2 < 1.0 && 0.0 <= r3 < 1.0
    ensures s.dtime == now
    ensures 10.0 <= s.current < 11.0
    ensures 12.0 <= s.voltage < 13.0
    ensures 18.0 <= s.temperature < 21.0
  {
    Sample(now, r3 * 3.0 + 18.0, r2 + 12.0, r1 + 10.0)
  }

  /** Every simulated sample derives to a row with a known temperature, a
      capacity of at least 33 percent and a charging ceiling in (14.77, 14.86]. */
  lemma SimulatedRowsAreInRange(r1: real, r2: real, r3: real, now: int, stamp: int)
    requires 0.0 <= r1 < 1.0 && 0.0 <= r2 < 1.0 && 0.0 <= r3 < 1.0
    ensures Derive(SimRead(r1, r2, r3, now), stamp).temperature.Some?
    ensures 33 <= Derive(SimRead(r1, r2, r3, now), stamp).capacity <= 100
    ensures 14.77 < Derive(SimRead(r1, r2, r3, now), stamp).maxChargingVoltage <= 14.86
  {
    var s := SimRead(r1, r2, r3, now);
    CapacityBetween(s.voltage);
  }

}

=== FILE: numeric.dfy ===
/** Python's built-in `round` on a single number: round half to even. */
module Numeric {

  /** The integer nearest to `x`; an exact tie goes to the even neighbour. */
  function Round(x: real): (r: int)
    ensures -0.5 <= r as real - x <= 0.5
    ensures (r as real - x == 0.5 || x - r as real == 0.5) ==> r % 2 == 0
  {
    var f := x.Floor;
    var frac := x - f as real;
    if frac < 0.5 then f
    else if frac > 0.5 then f + 1
    else if f % 2 == 0 then f
    else f + 1
  }

  /** The contract of `Round` pins its result down: any integer within one half
      of `x` that breaks ties towards even is `Round(x)`. */
  lemma RoundUnique(x: real, n: int)
    requires -0.5 <= n as real - x <= 0.5
    requires (n as real - x == 0.5 || x - n as real == 0.5) ==> n % 2 == 0
    ensures n == Round(x)
  {
  }

  /** Rounding never reverses the order of its arguments. */
  lemma RoundMonotone(x: real, y: real)
    requires x <= y
    ensures Round(x) <= Round(y)
  {
  }

}

=== FILE: text.dfy ===
/** The string operations the frame parser relies on: Python's `str.split`
    with a one-character separator, its inverse `join`, and `startswith`. */
module Text {

  /** `sep.join(pieces)`. */
  function Join(pieces: seq<string>, sep: char): string
    requires |pieces| >= 1
    decreases |pieces|
  {
    if |pieces| == 1 then pieces[0]
    else pieces[0] + [sep] + Join(pieces[1..], sep)
  }

  /** `s.split(sep)`: the maximal separator-free pieces between separators. An
      empty string gives one empty piece, as in Python. */
  function Split(s: string, sep: char): (r: seq<string>)
    ensures |r| >= 1
    ensures forall i :: 0 <= i < |r| ==> sep !in r[i]
    ensures Join(r, sep) == s
    decreases |s|
  {
    if |s| == 0 then [""]
    else
      var rest := Split(s[1..], sep);
      if s[0] == sep then
        assert s == [sep] + s[1..];
        [""] + rest
      else
        var r := [[s[0]] + rest[0]] + rest[1..];
        assert r[1..] == rest[1..];
        assert Join(r, sep) == [s[0]] + Join(rest, sep) by {
          if |rest| > 1 {
            assert Join(rest, sep) == rest[0] + [sep] + Join(rest[1..], sep);
          }
        }
        assert s == [s[0]] + s[1..];
        r
  }

  /** `s.startswith(prefix)`. */
  predicate StartsWith(s: string, prefix: string)
    ensures StartsWith(s, prefix) <==> |prefix| <= |s| && forall i :: 0 <= i < |prefix| ==> s[i] == prefix[i]
  {
    |prefix| <= |s| && s[..|prefix|] == prefix
  }

  /** A string without the separator is a single piece. */
  lemma {:induction false} SplitWithoutSeparator(a: string, sep: char)
    requires sep !in a
    ensures Split(a, sep) == [a]
    decreases |a|
  {
    if |a| > 0 {
      SplitWithoutSeparator(a[1..], sep);
      assert [a[0]] + a[1..] == a;
    }
  }

  /** Splitting peels off the text before the first separator. */
  lemma {:induction false} SplitAtFirstSeparator(a: string, b: string, sep: char)
    requires sep !in a
    ensures Split(a + [sep] + b, sep) == [a] + Split(b, sep)
    decreases |a|
  {
    var s := a + [sep] + b;
    if |a| == 0 {
      assert s[1..] == b;
    } else {
      assert s[1..] == a[1..] + [sep] + b;
      SplitAtFirstSeparator(a[1..], b, sep);
      assert [a[0]] + a[1..] == a;
    }
  }

  /** `split` undoes `join` when no piece holds the separator. */
  lemma {:induction false} SplitJoin(pieces: seq<string>, sep: char)
    requires |pieces| >= 1
    requires forall i :: 0 <= i < |pieces| ==> sep !in pieces[i]
    ensures Split(Join(pieces, sep), sep) == pieces
    decreases |pieces|
  {
    if |pieces| == 1 {
      SplitWithoutSeparator(pieces[0], sep);
    } else {
      SplitJoin(pieces[1..], sep);
      SplitAtFirstSeparator(pieces[0], Join(pieces[1..], sep), sep);
      assert [pieces[0]] + pieces[1..] == pieces;
    }
  }

  /** A character that is neither the separator nor in any piece is not in the
      joined string. */
  lemma {:induction false} JoinAvoids(pieces: seq<string>, sep: char, c: char)
    requires |pieces| >= 1
    requires c != sep
    requires forall i :: 0 <= i < |pieces| ==> c !in pieces[i]
    ensures c !in Join(pieces, sep)
    decreases |pieces|
  {
    if |pieces| > 1 {
      JoinAvoids(pieces[1..], sep, c);
    }
  }

  /** A joined string starts with its first piece. */
  lemma JoinStartsWithFirst(pieces: seq<string>, sep: char)
    requires |pieces| >= 1
    ensures StartsWith(Join(pieces, sep), pieces[0])
  {
  }

  /** `startswith` is transitive. */
  lemma StartsWithTransitive(s: string, p: string, q: string)
    requires StartsWith(s, p) && StartsWith(p, q)
    ensures StartsWith(s, q)
  {
    assert s[..|q|] == s[..|p|][..|q|];
  }

}

=== FILE: time_window.dfy ===
/** The time-axis navigation of the main window (`MainWindow.plot_time_left`,
    `plot_time_right`, `plot_time_plus`, `plot_time_minus`): arithmetic on the
    pair (`x_min`, `x_max`) behind the '<', '>', '+' and '-' buttons. */
module TimeWindow {

  /** The visible stretch of the time axis. */
  datatype Span = Span(xMin: real, xMax: real) {
    function Width(): real
    {
      xMax - xMin
    }
  }

  /** '<': move both bounds back by half the width. */
  function PanLeft(s: Span): (r: Span)
    ensures r.Width() == s.Width()
    ensures r.xMin == s.xMin - s.Width() / 2.0
  {
    var d := s.xMax - s.xMin;
    Span(s.xMin - d / 2.0, s.xMax - d / 2.0)
  }

  /** '>': move both bounds forward by half the width. */
  function PanRight(s: Span): (r: Span)
    ensures r.Width() == s.Width()
    ensures r.xMin == s.xMin + s.Width() / 2.0
  {
    var d := s.xMax - s.xMin;
    Span(s.xMin + d / 2.0, s.xMax + d / 2.0)
  }

  /** '+': keep the start and halve the width. */
  function ZoomIn(s: Span): (r: Span)
    ensures r.xMin == s.xMin
    ensures r.Width() == s.Width() / 2.0
  {
    var d := s.xMax - s.xMin;
    Span(s.xMin, s.xMax - d / 2.0)
  }

  /** '-': keep the start and double the width. */
  function ZoomOut(s: Span): (r: Span)
    ensures r.xMin == s.xMin
    ensures r.Width() == 2.0 * s.Width()
  {
    var d := s.xMax - s.xMin;
    Span(s.xMin, s.xMax + d)
  }

  /** '<' then '>' comes back to the same window, and so does '>' then '<'. */
  lemma PansUndoEachOther(s: Span)
    ensures PanRight(PanLeft(s)) == s
    ensures PanLeft(PanRight(s)) == s
  {
  }

  /** '-' then '+' comes back to the same window, and so does '+' then '-'. */
  lemma ZoomsUndoEachOther(s: Span)
    ensures ZoomIn(ZoomOut(s)) == s
    ensures ZoomOut(ZoomIn(s)) == s
  {
  }

  /** Two pans in the same direction move the window by one full width. */
  lemma TwoPansShiftByWidth(s: Span)
    ensures PanLeft(PanLeft(s)) == Span(s.xMin - s.Width(), s.xMax - s.Width())
    ensures PanRight(PanRight(s)) == Span(s.xMin + s.Width(), s.xMax + s.Width())
  {
  }

}

=== FILE: wrappers.dfy ===
/** The optional-value type shared by the model: Python's `None` versus a value. */
module Wrappers {

  datatype Option<+T> = None | Some(value: T)

}
